=== FILE: README.md ===
# VATSIM daily statistics bot — state tracker and daily report

A Dafny model of the core of a Discord bot that polls the VATSIM network
data feed once a minute, logs the flights and ATC sessions that concern
three monitored airports (OLBA Beirut, OSDI Damascus, ORBI Baghdad), and
posts at most one summary per UTC day, at 01:10, as long as the clock's
date does not step back.

The bot keeps three fields on its client object: the flight log
`flights`, the session table `atc_sessions` keyed by controller id, and
the latch `last_report_date`. The model makes them an immutable `State`
and turns one iteration of the poll loop into a pure function
`Scheduler.Step` of the state, the HTTP response and the clock readings.

Modules (one file each):

- `Common` (`common.dfy`): `Option`, Python's substring test `Contains`,
  and `CountWhere` with its index-set and concatenation lemmas.
- `Config` (`config.dfy`): the monitored airport codes in dictionary order,
  status 200, the 01:10 report time and the one-minute increment.
- `Feed` (`feed.dfy`): pilot and controller entries as read with
  `dict.get` (every pilot field optional, a missing controller callsign
  read as `""`, a missing cid read as `None`), snapshot and response.
- `Flights` (`flights.dfy`): flight ingestion.
- `AtcSessions` (`sessions.dfy`): session tracking, including the inner
  loop over monitored codes.
- `DailyReport` (`report.dfy`): per-airport arrival, departure and session
  counts.
- `Scheduler` (`scheduler.dfy`): the poll step, the report gate and reset,
  and runs of many polls.

Times are integers in minutes. Dates are integer day numbers. The clock
is an input. `now` (the poll timestamp) and the hour, minute and date of
the gate are separate fields, because the source reads the clock twice.

Behaviour of the bot worth knowing (the model keeps all of it):

- There is no deduplication of flights. The same pilot seen in k polls
  leaves k records and adds k to the counts.
- Airport codes are not trimmed or upper-cased. A code matches only if it
  is exactly a key of `AIRPORTS`.
- Session duration counts sightings, not elapsed time. It grows by one
  fixed minute for each monitored code found in the callsign at each poll.
  A new session starts at 0.
- The bot keeps no previous-poll timestamp and no set of active or ended
  sessions. A session stays in the table until the daily reset.
- The gate needs hour 1 and minute 10. Polls are
  60 seconds plus the fetch time apart, so a date on which no poll lands
  in minute 10 gets no report (`Scheduler.NoReportWithoutTenPastOne`).
- Only the three airport codes are monitored. There are no region codes.

## Model

| member | source | states |
|---|---|---|
| Flights.NewFlights | bot.py:58-68 | every record a poll appends carries the poll time and has a monitored departure or arrival; at most one record per pilot entry |
| Flights.Ingest | bot.py:58-68 | the old flight log stays a prefix of the new one (earlier records unchanged); every added record is stamped `now` and concerns a monitored airport |
| Flights.IngestFlights | bot.py:58-68 | the pilot-by-pilot append loop produces exactly the functional ingestion result |
| Flights.SinglePilot | bot.py:62-68 | one pilot entry yields its stamped record if and only if its departure or arrival is a key of `AIRPORTS`, and nothing otherwise |
| Flights.NewFlightsAppend | bot.py:58-68 | ingestion follows feed order: the records of a concatenated feed are the records of each part, concatenated |
| Flights.NewFlightsExact | bot.py:58-68 | every relevant pilot of the feed is recorded, and every record is the stamp of some relevant pilot of the feed |
| Flights.IrrelevantNeverRecorded | bot.py:62 | a pilot whose departure and arrival are both outside `AIRPORTS` (or `None`) never gets a record with its route |
| Flights.NoDedup | bot.py:62-68 | a relevant pilot seen in k polls leaves exactly k more records with its callsign and route; there is no deduplication |
| AtcSessions.MatchCount | bot.py:76-77 | the number of matched monitored codes is at most the number of codes, and is zero exactly when no code occurs in the callsign |
| AtcSessions.Touch | bot.py:78-85 | an unknown cid gets a session opened at `now` with duration 0 under the current callsign; a known cid gains exactly one minute and keeps its callsign and start; other cids are unchanged |
| AtcSessions.TrackCodes | bot.py:76-85 | the loop over monitored codes removes no session, adds at most the controller's own cid, and leaves every other cid unchanged |
| AtcSessions.TrackCodesClosedForm | bot.py:76-85 | with k matching codes: nothing changes when k = 0; an unknown cid gets a session (callsign, now, k-1); a known cid gains exactly k minutes with its callsign and start unchanged |
| AtcSessions.TrackController | bot.py:74-85 | one controller changes only its own cid; sessions are not removed; a known cid keeps its callsign and start and never loses time |
| AtcSessions.TrackControllerIsLoop | bot.py:74-85 | the bot's loop over monitored codes for one controller equals the closed form: no match changes nothing, an unknown cid gets (callsign, now, k-1), a known cid gains k minutes |
| AtcSessions.TrackAllKnown | bot.py:73-85 | over a whole snapshot, an existing session keeps its callsign and start and gains exactly one minute per matched code, summed over every entry carrying its cid |
| AtcSessions.TrackAllNew | bot.py:73-85 | a cid without a session that the snapshot matches gets one opened at `now` under the callsign of the first matching entry with that cid, with duration one less than its matches |
| AtcSessions.TrackAllUnmatched | bot.py:73-85 | a cid that no entry matches is left as it was: absent stays absent, present stays unchanged |
| AtcSessions.TrackAll | bot.py:73-85 | sessions are never removed during a poll, and a session's callsign and start never change while its duration never decreases |
| DailyReport.Arrivals | bot.py:114 | the arrivals shown equal the number of log positions whose arrival is the airport, and are at most the log length |
| DailyReport.Departures | bot.py:115 | the departures shown equal the number of log positions whose departure is the airport, and are at most the log length |
| DailyReport.SessionCids | bot.py:116 | the cids counted for an airport are never more than the sessions in the table |
| DailyReport.SessionsAt | bot.py:116 | the session count of an airport is at most the number of sessions |
| DailyReport.Generate | bot.py:113-116 | one entry per monitored airport in `AIRPORTS` order, each with arrivals, departures and sessions counted as above and bounded by the collection sizes |
| DailyReport.CountsAfterPoll | bot.py:58-115 | a poll raises an airport's arrivals (departures) by exactly the number of pilot entries planning to arrive at (depart from) it |
| DailyReport.SessionsAfterKnownController | bot.py:84-116 | a controller whose cid already has a session changes no airport's session count |
| DailyReport.SessionsAfterNewMatching | bot.py:78-116 | a new cid whose callsign contains an airport's code adds exactly one to that airport's session count |
| DailyReport.SessionsAfterNewOther | bot.py:78-116 | a new cid matching only other monitored codes leaves that airport's session count unchanged |
| Common.CountWhereIsIndexCount | bot.py:114-115 | counting with a generator sum equals the size of the set of matching positions |
| Common.CountWhereAppend | bot.py:114-115 | counting distributes over concatenation of the log |
| Common.CountWhere | bot.py:114-116 | a generator count `sum(1 for ...)` never exceeds the length of what it iterates |
| Common.ContainsIffSplit | bot.py:77 | Python's `code in callsign` holds exactly when the callsign is some prefix, then the code, then some suffix |
| Scheduler.Update | bot.py:58-85 | folding a snapshot extends the flight log by ingestion, keeps every session key and leaves the latch alone |
| Scheduler.ReportDue | bot.py:91 | the gate opens only when the clock reads hour 1, minute 10 UTC, and never on the date the latch holds |
| Scheduler.Reset | bot.py:94-98 | posting empties both collections and closes the gate for every later poll on the same date |
| Scheduler.Step | bot.py:50-98 | a non-200 response changes nothing and posts nothing; a report is posted iff the status is 200, hour is 1, minute is 10 and the latch differs from today; posting latches today and empties both collections; otherwise the log and key set only grow and the latch is kept |
| Scheduler.ReportCoversPoll | bot.py:58-116 | the posted report counts this poll's snapshot too: each airport's arrivals (departures) are those of the log before the poll plus this snapshot's pilot entries planning to arrive there (depart from there) |
| Scheduler.AtMostOncePerDate | bot.py:91-98 | the poll right after a posting poll cannot post again on the same date, whatever its response; `LatchedDayIsSilent` covers any run of polls on the latched date, and `ReportDatesIncrease` gives at most one report per date when dates never go backwards |
| Scheduler.Run | bot.py:48-103 | a run posts at most one report per poll, and its latch ends on the date of the last report posted, or where it started when none was |
| Scheduler.LatchedDayIsSilent | bot.py:91-98 | once the latch holds a date, any number of further polls on that date post nothing and keep the latch |
| Scheduler.NoReportWithoutTenPastOne | bot.py:90-98 | a run in which no poll reads 01:10 posts nothing and leaves the latch unchanged |
| Scheduler.ReportsNotBeforeStart | bot.py:48-103 | with a clock that never goes backwards, no report of a run is dated before its first poll |
| Scheduler.ReportsAfterLatch | bot.py:91-94 | with a clock whose date never goes backwards and a latch not ahead of the first poll, every report of a run is dated strictly after the latch the run started with |
| Scheduler.ReportDatesIncrease | bot.py:48-103 | with a clock that never goes backwards, the reports of any run carry strictly increasing dates, so at most one per date |
| Scheduler.FreshBotReports | bot.py:31-103 | a freshly started bot (empty log and table, no latch) polled by a clock whose date never goes backwards posts reports with strictly increasing dates, none before its first poll |

## Left out

- Discord: the client, channel lookup, `channel.send`, the embed's title,
  description, colour and field layout (bot.py:1, 23-30, 34-45, 93,
  106-110, 117 onward). The report's embed fields (bot.py:118 onward) are
  not modelled.
- Delivery failure: the model assumes `channel.send` succeeds. In the
  source a failing send raises before the latch is set and before the
  reset (bot.py:93-98).
- The HTTP fetch with `requests.get` and JSON decoding (bot.py:50-52).
  A response is an input: a status plus an already decoded snapshot.
- The background task, the `while not self.is_closed()` loop and the
  60-second sleep (bot.py:36, 48, 103). One poll is the pure `Step`, and a
  run is a finite sequence of ticks.
- Clock reads (bot.py:53, 90, 107). They are parameters. Time zones are not
  modelled. The date in the report's title is a third clock read; the
  model dates the report with the gate's date.
- The catch-all `except Exception` (bot.py:100-101) and any partial state
  left by an exception in the middle of a poll. Examples are a `null`
  callsign, a `null` `pilots` array, or an unhashable airport field.
- Flask and threading (bot.py:6-7). No logic uses them.
- The airports' display names (bot.py:15-17). Only the embed uses them.

=== FILE: common.dfy ===
/** Shared vocabulary of the model: optional values (Python's `None`),
    Python's substring test on strings, and counting the elements of a
    sequence that satisfy a condition. */
module Common {

  /** A value that may be absent, as a JSON field read with `dict.get`. */
  datatype Option<+T> = None | Some(value: T)

  /** `sub` occurs in `s` starting at offset `i`. */
  predicate OccursAt(s: string, sub: string, i: int)
  {
    0 <= i && i + |sub| <= |s| && s[i..i + |sub|] == sub
  }

  /** Python's `sub in s` on two strings: `sub` occurs at some offset of `s`.
      The empty string occurs in every string, and a longer one never occurs. */
  predicate Contains(s: string, sub: string)
  {
    exists i | 0 <= i <= |s| - |sub| :: OccursAt(s, sub, i)
  }

  /** The substring test agrees with splitting: `sub` is in `s` exactly when
      `s` is some prefix, then `sub`, then some suffix. */
  lemma ContainsIffSplit(s: string, sub: string)
    ensures Contains(s, sub) <==> exists a, b | |a| + |sub| + |b| == |s| :: s == a + sub + b
  {
    if Contains(s, sub) {
      var i :| 0 <= i <= |s| - |sub| && OccursAt(s, sub, i);
      assert s == s[..i] + sub + s[i + |sub|..];
    }
    if exists a, b | |a| + |sub| + |b| == |s| :: s == a + sub + b {
      var a, b :| |a| + |sub| + |b| == |s| && s == a + sub + b;
      assert s[|a|..|a| + |sub|] == sub;
      assert OccursAt(s, sub, |a|);
    }
  }

  /** The number of elements of `s` that satisfy `p`, as Python's
      `sum(1 for x in s if p(x))`. */
  function CountWhere<T>(s: seq<T>, p: T -> bool): (n: nat)
    ensures n <= |s|
  {
    if |s| == 0 then 0
    else CountWhere(s[..|s| - 1], p) + (if p(s[|s| - 1]) then 1 else 0)
  }

  /** The positions of `s` whose element satisfies `p`. */
  function Indices<T>(s: seq<T>, p: T -> bool): set<int>
  {
    set i | 0 <= i < |s| && p(s[i])
  }

  /** Counting agrees with the size of the set of matching positions. */
  lemma {:induction false} CountWhereIsIndexCount<T>(s: seq<T>, p: T -> bool)
    ensures CountWhere(s, p) == |Indices(s, p)|
  {
    if |s| > 0 {
      var n := |s| - 1;
      var t := s[..n];
      CountWhereIsIndexCount(t, p);
      assert n !in Indices(t, p);
      if p(s[n]) {
        assert Indices(s, p) == Indices(t, p) + {n};
      } else {
        assert Indices(s, p) == Indices(t, p);
      }
    }
  }

  /** Counting distributes over concatenation. */
  lemma {:induction false} CountWhereAppend<T>(a: seq<T>, b: seq<T>, p: T -> bool)
    ensures CountWhere(a + b, p) == CountWhere(a, p) + CountWhere(b, p)
  {
    if |b| == 0 {
      assert a + b == a;
    } else {
      var n := |b| - 1;
      assert (a + b)[..|a + b| - 1] == a + b[..n];
      assert (a + b)[|a + b| - 1] == b[n];
      CountWhereAppend(a, b[..n], p);
    }
  }
}

=== FILE: config.dfy ===
/** The bot's fixed configuration (bot.py:12-18 and the constants of the
    poll loop). */
module Config {

  /** The monitored airports, keys of `AIRPORTS` in insertion order (bot.py:14-18);
      Python iterates a dict in this order. The display names only reach the
      embed and are not modelled. */
  const Airports: seq<string> := ["OLBA", "OSDI", "ORBI"]

  /** Python's `code in AIRPORTS`: an exact key match. */
  predicate IsAirport(code: string)
  {
    code in Airports
  }

  /** The only HTTP status whose response is processed (bot.py:51). */
  const StatusOk: int := 200

  /** The report is posted at 01:10 UTC (bot.py:91). */
  const ReportHour: int := 1
  const ReportMinute: int := 10

  /** Minutes added to a known session each time a monitored code matches (bot.py:85). */
  const MinutesPerMatch: nat := 1
}

=== FILE: feed.dfy ===
/** The decoded VATSIM data feed as the poll loop reads it (bot.py:50-61, 73-75).
    Fields read with `dict.get` are optional; a missing `pilots` or
    `controllers` array reads as an empty sequence. */
module Feed {
  import opened Common

  /** A pilot entry: `callsign`, `planned_departure_airport` and
      `planned_arrival_airport`, each possibly absent. */
  datatype Pilot = Pilot(callsign: Option<string>, departure: Option<string>, arrival: Option<string>)

  /** A controller's `cid`; a missing cid reads as `None`, which is still a
      valid dictionary key. */
  type Cid = Option<int>

  /** A controller entry: `callsign` (empty when missing) and `cid`. */
  datatype Controller = Controller(callsign: string, cid: Cid)

  /** One decoded payload. */
  datatype Snapshot = Snapshot(pilots: seq<Pilot>, controllers: seq<Controller>)

  /** The HTTP response of one fetch: its status and, when it decoded, the
      snapshot. */
  datatype Response = Response(status: int, snapshot: Snapshot)
}

=== FILE: flights.dfy ===
/** Flight ingestion (bot.py:58-68): every pilot whose planned departure or
    arrival is a monitored airport is appended to the day's flight log,
    stamped with the poll time. There is no deduplication. */
module Flights {
  import opened Common
  import Config
  import opened Feed

  /** One entry of the flight log: the pilot's callsign and planned airports
      exactly as read from the feed, and the poll time in minutes. */
  datatype Flight = Flight(callsign: Option<string>, dep: Option<string>, arr: Option<string>, time: int)

  /** `code in AIRPORTS` for a field that may be `None` (which is never a key). */
  predicate Monitored(code: Option<string>)
  {
    code.Some? && Config.IsAirport(code.value)
  }

  /** The guard of bot.py:62. */
  predicate Relevant(p: Pilot)
  {
    Monitored(p.departure) || Monitored(p.arrival)
  }

  /** The record appended for pilot `p` in a poll at time `now`. */
  function Stamp(p: Pilot, now: int): Flight
  {
    Flight(p.callsign, p.departure, p.arrival, now)
  }

  /** The records one poll appends, in feed order. */
  function NewFlights(pilots: seq<Pilot>, now: int): (r: seq<Flight>)
    ensures |r| <= |pilots|
    ensures forall f | f in r :: f.time == now && (Monitored(f.dep) || Monitored(f.arr))
  {
    if |pilots| == 0 then []
    else (if Relevant(pilots[0]) then [Stamp(pilots[0], now)] else []) + NewFlights(pilots[1..], now)
  }

  /** The flight log after one poll: the old log is kept as a prefix and
      every added record belongs to a monitored route and carries `now`. */
  function Ingest(flights: seq<Flight>, pilots: seq<Pilot>, now: int): (r: seq<Flight>)
    ensures flights <= r
    ensures |r| <= |flights| + |pilots|
    ensures forall i | |flights| <= i < |r| :: r[i].time == now && (Monitored(r[i].dep) || Monitored(r[i].arr))
  {
    flights + NewFlights(pilots, now)
  }

  /** The poll loop of bot.py:58-68, appending one pilot at a time. */
  method IngestFlights(flights: seq<Flight>, pilots: seq<Pilot>, now: int) returns (r: seq<Flight>)
    ensures r == Ingest(flights, pilots, now)
  {
    r := flights;
    for i := 0 to |pilots|
      invariant r == flights + NewFlights(pilots[..i], now)
    {
      var p := pilots[i];
      if Relevant(p) {
        r := r + [Stamp(p, now)];
      }
      assert pilots[..i + 1] == pilots[..i] + [p];
      NewFlightsAppend(pilots[..i], [p], now);
    }
    assert pilots[..|pilots|] == pilots;
  }

  /** A single pilot yields its stamped record exactly when it is relevant,
      and nothing otherwise. */
  lemma SinglePilot(p: Pilot, now: int)
    ensures NewFlights([p], now) == [Stamp(p, now)] <==> Relevant(p)
    ensures NewFlights([p], now) == [] <==> !Relevant(p)
  {
  }

  /** Ingestion is a homomorphism over the feed: splitting the pilot list
      splits the appended records at the same point. Together with
      `SinglePilot` this fixes the output completely, order included. */
  lemma {:induction false} NewFlightsAppend(a: seq<Pilot>, b: seq<Pilot>, now: int)
    ensures NewFlights(a + b, now) == NewFlights(a, now) + NewFlights(b, now)
  {
    if |a| == 0 {
      assert a + b == b;
    } else {
      var head := if Relevant(a[0]) then [Stamp(a[0], now)] else [];
      assert (a + b)[0] == a[0];
      assert (a + b)[1..] == a[1..] + b;
      NewFlightsAppend(a[1..], b, now);
      calc {
        NewFlights(a + b, now);
        head + NewFlights(a[1..] + b, now);
        head + (NewFlights(a[1..], now) + NewFlights(b, now));
        (head + NewFlights(a[1..], now)) + NewFlights(b, now);
        NewFlights(a, now) + NewFlights(b, now);
      }
    }
  }

  /** Every relevant pilot is recorded, and every record is the stamp of a
      relevant pilot of the feed. */
  lemma {:induction false} NewFlightsExact(pilots: seq<Pilot>, now: int)
    ensures forall i | 0 <= i < |pilots| && Relevant(pilots[i]) :: Stamp(pilots[i], now) in NewFlights(pilots, now)
    ensures forall f | f in NewFlights(pilots, now) ::
              exists i | 0 <= i < |pilots| :: Relevant(pilots[i]) && f == Stamp(pilots[i], now)
  {
    if |pilots| > 0 {
      var rest := pilots[1..];
      NewFlightsExact(rest, now);
      var head := if Relevant(pilots[0]) then [Stamp(pilots[0], now)] else [];
      assert NewFlights(pilots, now) == head + NewFlights(rest, now);
      forall i | 0 <= i < |pilots| && Relevant(pilots[i])
        ensures Stamp(pilots[i], now) in NewFlights(pilots, now)
      {
        if i > 0 {
          assert pilots[i] == rest[i - 1];
        }
      }
      forall f | f in NewFlights(pilots, now)
        ensures exists i | 0 <= i < |pilots| :: Relevant(pilots[i]) && f == Stamp(pilots[i], now)
      {
        if f in head {
          assert Relevant(pilots[0]) && f == Stamp(pilots[0], now);
        } else {
          assert f in NewFlights(rest, now);
          var j :| 0 <= j < |rest| && Relevant(rest[j]) && f == Stamp(rest[j], now);
          assert pilots[j + 1] == rest[j];
        }
      }
    }
  }

  /** A pilot with neither planned airport monitored (including `None`)
      never produces a record, whatever else is in the feed. */
  lemma IrrelevantNeverRecorded(pilots: seq<Pilot>, p: Pilot, now: int)
    requires !Relevant(p)
    ensures forall f | f in NewFlights(pilots, now) :: f.dep != p.departure || f.arr != p.arrival
  {
  }

  /** The log entries that carry pilot `p`'s callsign and route. */
  function SamePlan(p: Pilot): Flight -> bool
  {
    (f: Flight) => f.callsign == p.callsign && f.dep == p.departure && f.arr == p.arrival
  }

  /** The flight log after polls at the times `nows`, each seeing only `p`. */
  function IngestRepeatedly(flights: seq<Flight>, p: Pilot, nows: seq<int>): seq<Flight>
    decreases |nows|
  {
    if |nows| == 0 then flights
    else IngestRepeatedly(Ingest(flights, [p], nows[0]), p, nows[1..])
  }

  /** No deduplication: a relevant pilot seen in k polls leaves k more
      records of its callsign and route in the log. */
  lemma {:induction false} NoDedup(flights: seq<Flight>, p: Pilot, nows: seq<int>)
    requires Relevant(p)
    decreases |nows|
    ensures CountWhere(IngestRepeatedly(flights, p, nows), SamePlan(p)) == CountWhere(flights, SamePlan(p)) + |nows|
  {
    if |nows| > 0 {
      var next := Ingest(flights, [p], nows[0]);
      SinglePilot(p, nows[0]);
      assert next == flights + [Stamp(p, nows[0])];
      CountWhereAppend(flights, [Stamp(p, nows[0])], SamePlan(p));
      assert CountWhere([Stamp(p, nows[0])], SamePlan(p)) == 1 by {
        assert [Stamp(p, nows[0])][..0] == [];
      }
      NoDedup(next, p, nows[1..]);
    }
  }
}

=== FILE: report.dfy ===
/** The counting part of the daily report (bot.py:113-116): for each
    monitored airport, in `AIRPORTS` order, the number of logged arrivals,
    departures and ATC sessions. */
module DailyReport {
  import opened Common
  import Config
  import opened Feed
  import opened Flights
  import opened AtcSessions

  /** The numbers shown for one airport. */
  datatype AirportStats = AirportStats(icao: string, arrivals: nat, departures: nat, sessions: nat)

  /** A report: the UTC date it was posted for and one entry per airport. */
  datatype Report = Report(date: int, stats: seq<AirportStats>)

  /** `f["arr"] == icao`; a `None` arrival never equals a code. */
  function ArrivesAt(icao: string): Flight -> bool
  {
    (f: Flight) => f.arr == Some(icao)
  }

  /** `f["dep"] == icao`. */
  function DepartsFrom(icao: string): Flight -> bool
  {
    (f: Flight) => f.dep == Some(icao)
  }

  /** The arrivals shown for `icao`: one per log entry arriving there. */
  function Arrivals(flights: seq<Flight>, icao: string): (n: nat)
    ensures n == |set i | 0 <= i < |flights| && flights[i].arr == Some(icao)|
    ensures n <= |flights|
  {
    CountWhereIsIndexCount(flights, ArrivesAt(icao));
    assert Indices(flights, ArrivesAt(icao)) == set i | 0 <= i < |flights| && flights[i].arr == Some(icao);
    CountWhere(flights, ArrivesAt(icao))
  }

  /** The departures shown for `icao`: one per log entry departing there. */
  function Departures(flights: seq<Flight>, icao: string): (n: nat)
    ensures n == |set i | 0 <= i < |flights| && flights[i].dep == Some(icao)|
    ensures n <= |flights|
  {
    CountWhereIsIndexCount(flights, DepartsFrom(icao));
    assert Indices(flights, DepartsFrom(icao)) == set i | 0 <= i < |flights| && flights[i].dep == Some(icao);
    CountWhere(flights, DepartsFrom(icao))
  }

  /** The cids whose session callsign contains `icao`: never more than
      there are sessions. */
  function SessionCids(sessions: Sessions, icao: string): (r: set<Cid>)
    ensures |r| <= |sessions|
  {
    var r := set cid | cid in sessions && Contains(sessions[cid].callsign, icao);
    SubsetCard(r, sessions.Keys);
    r
  }

  /** The ATC sessions shown for `icao`: at most one per controller id. */
  function SessionsAt(sessions: Sessions, icao: string): (n: nat)
    ensures n <= |sessions|
  {
    |SessionCids(sessions, icao)|
  }

  /** A subset is no larger than its superset. */
  lemma SubsetCard<T>(a: set<T>, b: set<T>)
    requires a <= b
    ensures |a| <= |b|
  {
    assert b == a + (b - a);
  }

  /** The report built from the state at posting time. */
  function Generate(flights: seq<Flight>, sessions: Sessions, date: int): (r: Report)
    ensures r.date == date
    ensures |r.stats| == |Config.Airports|
    ensures forall i | 0 <= i < |r.stats| ::
              && r.stats[i].icao == Config.Airports[i]
              && r.stats[i].arrivals == |set j | 0 <= j < |flights| && flights[j].arr == Some(Config.Airports[i])|
              && r.stats[i].departures == |set j | 0 <= j < |flights| && flights[j].dep == Some(Config.Airports[i])|
              && r.stats[i].sessions == |SessionCids(sessions, Config.Airports[i])|
              && r.stats[i].arrivals <= |flights| && r.stats[i].departures <= |flights|
              && r.stats[i].sessions <= |sessions|
  {
    Report(date, seq(|Config.Airports|, i requires 0 <= i < |Config.Airports| =>
      var icao := Config.Airports[i];
      AirportStats(icao, Arrivals(flights, icao), Departures(flights, icao), SessionsAt(sessions, icao))))
  }

  /** Pilots of a feed that plan to arrive at `icao`. */
  function PlansArrivalAt(icao: string): Pilot -> bool
  {
    (p: Pilot) => p.arrival == Some(icao)
  }

  /** Pilots of a feed that plan to depart from `icao`. */
  function PlansDepartureFrom(icao: string): Pilot -> bool
  {
    (p: Pilot) => p.departure == Some(icao)
  }

  /** Counting new records by a condition on the stamped record is counting
      the feed's pilots by the matching condition on the entry, when that
      condition implies relevance. */
  lemma {:induction false} CountNewFlights(pilots: seq<Pilot>, now: int, fp: Flight -> bool, pp: Pilot -> bool)
    requires forall p :: fp(Stamp(p, now)) == pp(p)
    requires forall p :: pp(p) ==> Relevant(p)
    decreases |pilots|
    ensures CountWhere(NewFlights(pilots, now), fp) == CountWhere(pilots, pp)
  {
    if |pilots| > 0 {
      var p := pilots[0];
      var rest := pilots[1..];
      var head := if Relevant(p) then [Stamp(p, now)] else [];
      assert NewFlights(pilots, now) == head + NewFlights(rest, now);
      CountNewFlights(rest, now, fp, pp);
      CountWhereAppend(head, NewFlights(rest, now), fp);
      assert pilots == [p] + rest;
      CountWhereAppend([p], rest, pp);
      assert [p][..0] == [];
      if Relevant(p) {
        assert head[..0] == [];
      }
    }
  }

  /** Counts in the report grow with observations, not with distinct
      flights: a poll adds to the arrivals (departures) of a monitored
      airport exactly the number of pilot entries planning to arrive at
      (depart from) it. */
  lemma CountsAfterPoll(flights: seq<Flight>, pilots: seq<Pilot>, now: int, icao: string)
    requires Config.IsAirport(icao)
    ensures Arrivals(Ingest(flights, pilots, now), icao) == Arrivals(flights, icao) + CountWhere(pilots, PlansArrivalAt(icao))
    ensures Departures(Ingest(flights, pilots, now), icao) == Departures(flights, icao) + CountWhere(pilots, PlansDepartureFrom(icao))
  {
    var added := NewFlights(pilots, now);
    CountNewFlights(pilots, now, ArrivesAt(icao), PlansArrivalAt(icao));
    CountNewFlights(pilots, now, DepartsFrom(icao), PlansDepartureFrom(icao));
    CountWhereAppend(flights, added, ArrivesAt(icao));
    CountWhereAppend(flights, added, DepartsFrom(icao));
  }

  /** Adding a session under a new cid adds that cid to the counted set
      exactly when its callsign contains `icao`. */
  lemma SessionCidsAdd(sessions: Sessions, x: Cid, v: Session, icao: string)
    requires x !in sessions
    ensures SessionCids(sessions[x := v], icao)
            == SessionCids(sessions, icao) + (if Contains(v.callsign, icao) then {x} else {})
  {
    var after := SessionCids(sessions[x := v], icao);
    var expected := SessionCids(sessions, icao) + (if Contains(v.callsign, icao) then {x} else {});
    forall y
      ensures y in after <==> y in expected
    {
      if y != x {
        assert y in sessions[x := v] <==> y in sessions;
      }
    }
  }

  /** Two tables with the same cids and callsigns count the same cids. */
  lemma SessionCidsSameCallsigns(m1: Sessions, m2: Sessions, icao: string)
    requires m1.Keys == m2.Keys
    requires forall x | x in m1 :: m1[x].callsign == m2[x].callsign
    ensures SessionCids(m1, icao) == SessionCids(m2, icao)
  {
    forall y
      ensures y in SessionCids(m1, icao) <==> y in SessionCids(m2, icao)
    {
    }
  }

  /** The session count is per controller id: a cid already present changes
      no airport's count, however often it is seen again. */
  lemma SessionsAfterKnownController(sessions: Sessions, c: Controller, now: int, icao: string)
    requires c.cid in sessions
    ensures SessionsAt(TrackController(sessions, c, now), icao) == SessionsAt(sessions, icao)
  {
    var r := TrackController(sessions, c, now);
    assert r.Keys == sessions.Keys;
    SessionCidsSameCallsigns(r, sessions, icao);
  }

  /** A newly seen cid whose callsign contains `icao` (and so matches a
      monitored code) adds exactly one to that airport's session count. */
  lemma SessionsAfterNewMatching(sessions: Sessions, c: Controller, now: int, icao: string)
    requires c.cid !in sessions && Matches(c.callsign) > 0 && Contains(c.callsign, icao)
    ensures SessionsAt(TrackController(sessions, c, now), icao) == SessionsAt(sessions, icao) + 1
  {
    SessionCidsAdd(sessions, c.cid, Session(c.callsign, now, Matches(c.callsign) - 1), icao);
    assert c.cid !in SessionCids(sessions, icao);
  }

  /** A newly seen cid whose callsign matches other monitored codes but not
      `icao` leaves that airport's session count unchanged. */
  lemma SessionsAfterNewOther(sessions: Sessions, c: Controller, now: int, icao: string)
    requires c.cid !in sessions && Matches(c.callsign) > 0 && !Contains(c.callsign, icao)
    ensures SessionsAt(TrackController(sessions, c, now), icao) == SessionsAt(sessions, icao)
  {
    SessionCidsAdd(sessions, c.cid, Session(c.callsign, now, Matches(c.callsign) - 1), icao);
  }
}

=== FILE: scheduler.dfy ===
/** One iteration of the poll loop of bot.py:48-103, as a pure step over an
    explicit state: fold a successful snapshot into the day's flights and
    sessions, then post the report and reset when 01:10 UTC is reached on a
    date that has not been reported yet. */
module Scheduler {
  import opened Common
  import Config
  import opened Feed
  import opened Flights
  import opened AtcSessions
  import opened DailyReport

  /** The fields set up in `MyClient.__init__` (bot.py:31-33). */
  datatype State = State(flights: seq<Flight>, sessions: Sessions, lastReportDate: Option<int>)

  /** The state of a freshly started bot. */
  const Initial: State := State([], map[], None)

  /** The clock readings of one poll: `now` (bot.py:53) in minutes, and the
      hour, minute and date of the separate UTC reading that drives the gate
      (bot.py:90). */
  datatype Clock = Clock(now: int, hour: int, minute: int, date: int)

  /** What one poll produces: the next state and the report it posted, if any. */
  datatype Outcome = Outcome(state: State, report: Option<Report>)

  /** The report gate of bot.py:91: it opens only when the clock reads
      01:10 UTC, and never on the date the latch holds. */
  predicate ReportDue(st: State, clock: Clock)
    ensures ReportDue(st, clock) ==> clock.hour == Config.ReportHour && clock.minute == Config.ReportMinute
    ensures st.lastReportDate == Some(clock.date) ==> !ReportDue(st, clock)
  {
    clock.hour == Config.ReportHour && clock.minute == Config.ReportMinute && st.lastReportDate != Some(clock.date)
  }

  /** Folding a snapshot into the day's data (bot.py:58-85); the latch is untouched. */
  function Update(st: State, snap: Snapshot, now: int): (r: State)
    ensures r.flights == Ingest(st.flights, snap.pilots, now)
    ensures r.sessions.Keys >= st.sessions.Keys
    ensures r.lastReportDate == st.lastReportDate
  {
    State(Ingest(st.flights, snap.pilots, now), TrackAll(st.sessions, snap.controllers, now), st.lastReportDate)
  }

  /** Posting the report latches today's date and empties both collections
      (bot.py:94-98). */
  function Reset(date: int): (r: State)
    ensures r.flights == [] && r.sessions == map[]
    ensures forall clock: Clock | clock.date == date :: !ReportDue(r, clock)
  {
    State([], map[], Some(date))
  }

  /** One poll (bot.py:50-98). A non-200 response leaves everything as it
      was. Otherwise the snapshot is folded in and, when the gate is open,
      the report is generated from the updated state and the state is reset. */
  function Step(st: State, resp: Response, clock: Clock): (r: Outcome)
    ensures resp.status != Config.StatusOk ==> r.state == st && r.report == None
    ensures r.report.Some? <==> resp.status == Config.StatusOk && ReportDue(st, clock)
    ensures r.report.Some? ==>
              && r.state.flights == [] && r.state.sessions == map[]
              && r.state.lastReportDate == Some(clock.date)
              && r.report.value.date == clock.date
    ensures resp.status == Config.StatusOk && r.report.None? ==>
              && st.flights <= r.state.flights
              && st.sessions.Keys <= r.state.sessions.Keys
              && r.state.lastReportDate == st.lastReportDate
  {
    if resp.status != Config.StatusOk then Outcome(st, None)
    else
      var updated := Update(st, resp.snapshot, clock.now);
      if ReportDue(updated, clock) then
        Outcome(Reset(clock.date), Some(Generate(updated.flights, updated.sessions, clock.date)))
      else
        Outcome(updated, None)
  }

  /** The report posted by a poll covers that poll's own snapshot as well as
      everything logged since the last reset: each airport's arrivals and
      departures are those of the log before the poll plus the pilot entries
      of this snapshot that plan to arrive there or depart from there. */
  lemma ReportCoversPoll(st: State, resp: Response, clock: Clock)
    requires Step(st, resp, clock).report.Some?
    ensures var rep := Step(st, resp, clock).report.value;
            && |rep.stats| == |Config.Airports|
            && forall i | 0 <= i < |Config.Airports| ::
                 && rep.stats[i].arrivals
                    == Arrivals(st.flights, Config.Airports[i]) + CountWhere(resp.snapshot.pilots, PlansArrivalAt(Config.Airports[i]))
                 && rep.stats[i].departures
                    == Departures(st.flights, Config.Airports[i]) + CountWhere(resp.snapshot.pilots, PlansDepartureFrom(Config.Airports[i]))
  {
    forall i | 0 <= i < |Config.Airports|
      ensures Config.IsAirport(Config.Airports[i])
    {
    }
    forall i | 0 <= i < |Config.Airports| {
      CountsAfterPoll(st.flights, resp.snapshot.pilots, clock.now, Config.Airports[i]);
    }
  }

  /** The poll right after a posting poll cannot post again on the same
      date, whatever its response and time of day. `LatchedDayIsSilent`
      extends this to any run of polls on the latched date, and
      `ReportDatesIncrease` to a whole run whose dates never go backwards. */
  lemma {:induction false} AtMostOncePerDate(st: State, resp: Response, clock: Clock, resp': Response, clock': Clock)
    requires Step(st, resp, clock).report.Some?
    requires clock'.date == clock.date
    ensures Step(Step(st, resp, clock).state, resp', clock').report.None?
  {
  }

  /** One tick of the loop: the fetched response and the clock readings. */
  datatype Tick = Tick(response: Response, clock: Clock)

  /** What a sequence of polls produces. */
  datatype Trace = Trace(state: State, reports: seq<Report>)

  /** The loop of bot.py:48-103 run over a finite sequence of ticks. At most
      one report per tick; the latch ends on the date of the last report
      posted, or where it started when none was. */
  function Run(st: State, ticks: seq<Tick>): (r: Trace)
    decreases |ticks|
    ensures |r.reports| <= |ticks|
    ensures |r.reports| == 0 ==> r.state.lastReportDate == st.lastReportDate
    ensures |r.reports| > 0 ==> r.state.lastReportDate == Some(r.reports[|r.reports| - 1].date)
  {
    if |ticks| == 0 then Trace(st, [])
    else
      var o := Step(st, ticks[0].response, ticks[0].clock);
      var rest := Run(o.state, ticks[1..]);
      Trace(rest.state, (if o.report.Some? then [o.report.value] else []) + rest.reports)
  }

  /** With the latch on date `d`, any number of further polls on `d` post
      nothing and keep the latch. */
  lemma {:induction false} LatchedDayIsSilent(st: State, ticks: seq<Tick>, d: int)
    requires st.lastReportDate == Some(d)
    requires forall i | 0 <= i < |ticks| :: ticks[i].clock.date == d
    decreases |ticks|
    ensures Run(st, ticks).reports == []
    ensures Run(st, ticks).state.lastReportDate == Some(d)
  {
    if |ticks| > 0 {
      var o := Step(st, ticks[0].response, ticks[0].clock);
      assert o.report == None;
      assert forall i | 0 <= i < |ticks[1..]| :: ticks[1..][i] == ticks[i + 1];
      LatchedDayIsSilent(o.state, ticks[1..], d);
    }
  }

  /** The gate needs a poll that lands on 01:10 exactly: a run with no such
      poll posts nothing and leaves the latch as it was. */
  lemma {:induction false} NoReportWithoutTenPastOne(st: State, ticks: seq<Tick>)
    requires forall i | 0 <= i < |ticks| ::
               ticks[i].clock.hour != Config.ReportHour || ticks[i].clock.minute != Config.ReportMinute
    decreases |ticks|
    ensures Run(st, ticks).reports == []
    ensures Run(st, ticks).state.lastReportDate == st.lastReportDate
  {
    if |ticks| > 0 {
      var o := Step(st, ticks[0].response, ticks[0].clock);
      assert o.report == None;
      assert forall i | 0 <= i < |ticks[1..]| :: ticks[1..][i] == ticks[i + 1];
      NoReportWithoutTenPastOne(o.state, ticks[1..]);
    }
  }

  /** The clock's date never goes backwards. */
  predicate DatesMonotone(ticks: seq<Tick>)
  {
    forall i, j | 0 <= i < j < |ticks| :: ticks[i].clock.date <= ticks[j].clock.date
  }

  /** The latch is not ahead of the clock. */
  predicate LatchBehind(st: State, ticks: seq<Tick>)
  {
    st.lastReportDate.Some? && |ticks| > 0 ==> st.lastReportDate.value <= ticks[0].clock.date
  }

  /** Dropping the first tick keeps the clock monotone. */
  lemma MonotoneTail(ticks: seq<Tick>)
    requires |ticks| > 0 && DatesMonotone(ticks)
    ensures DatesMonotone(ticks[1..])
    ensures |ticks| > 1 ==> ticks[0].clock.date <= ticks[1..][0].clock.date
  {
    var rest := ticks[1..];
    forall i, j | 0 <= i < j < |rest|
      ensures rest[i].clock.date <= rest[j].clock.date
    {
      assert rest[i] == ticks[i + 1] && rest[j] == ticks[j + 1];
    }
  }

  /** The reports of a run split into those of its first tick and those of the rest. */
  lemma RunSplit(st: State, ticks: seq<Tick>)
    requires |ticks| > 0
    ensures var o := Step(st, ticks[0].response, ticks[0].clock);
            Run(st, ticks).reports == (if o.report.Some? then [o.report.value] else []) + Run(o.state, ticks[1..]).reports
  {
  }

  /** Every report in `reports` is dated no earlier than `d`. */
  predicate AllFrom(reports: seq<Report>, d: int)
  {
    forall i | 0 <= i < |reports| :: d <= reports[i].date
  }

  /** Every report in `reports` is dated strictly after `d`. */
  predicate AllAfter(reports: seq<Report>, d: int)
  {
    forall i | 0 <= i < |reports| :: d < reports[i].date
  }

  /** Date bounds hold of a concatenation when they hold of both parts. */
  lemma ConcatBounds(head: seq<Report>, tail: seq<Report>, d: int)
    ensures AllFrom(head, d) && AllFrom(tail, d) ==> AllFrom(head + tail, d)
    ensures AllAfter(head, d) && AllAfter(tail, d) ==> AllAfter(head + tail, d)
  {
    var all := head + tail;
    assert forall i | |head| <= i < |all| :: all[i] == tail[i - |head|];
  }

  /** A lower bound on dates gives a strict bound below it. */
  lemma FromImpliesAfter(reports: seq<Report>, d: int, e: int)
    requires AllFrom(reports, d) && e < d
    ensures AllAfter(reports, e)
  {
  }

  /** Every report of a run is dated no earlier than the run's first tick. */
  lemma {:induction false} ReportsNotBeforeStart(st: State, ticks: seq<Tick>)
    requires DatesMonotone(ticks)
    requires |ticks| > 0
    decreases |ticks|
    ensures AllFrom(Run(st, ticks).reports, ticks[0].clock.date)
  {
    var t := ticks[0];
    var o := Step(st, t.response, t.clock);
    var rest := ticks[1..];
    MonotoneTail(ticks);
    RunSplit(st, ticks);
    var tail := Run(o.state, rest).reports;
    var head := if o.report.Some? then [o.report.value] else [];
    if |rest| > 0 {
      ReportsNotBeforeStart(o.state, rest);
    } else {
      assert tail == [];
    }
    ConcatBounds(head, tail, t.clock.date);
  }

  /** Every report of a run is dated strictly after the latch it started
      with, when the latch is not ahead of the first poll and the clock's
      date never goes backwards. */
  lemma {:induction false} ReportsAfterLatch(st: State, ticks: seq<Tick>)
    requires DatesMonotone(ticks)
    requires LatchBehind(st, ticks)
    requires st.lastReportDate.Some?
    decreases |ticks|
    ensures AllAfter(Run(st, ticks).reports, st.lastReportDate.value)
  {
    var latch := st.lastReportDate.value;
    if |ticks| > 0 {
      var t := ticks[0];
      var o := Step(st, t.response, t.clock);
      var rest := ticks[1..];
      MonotoneTail(ticks);
      RunSplit(st, ticks);
      var tail := Run(o.state, rest).reports;
      var head := if o.report.Some? then [o.report.value] else [];
      if o.report.Some? {
        assert latch < t.clock.date;
        if |rest| > 0 {
          ReportsNotBeforeStart(o.state, rest);
          FromImpliesAfter(tail, rest[0].clock.date, latch);
        } else {
          assert tail == [];
        }
      } else {
        assert o.state.lastReportDate == st.lastReportDate;
        assert LatchBehind(o.state, rest);
        ReportsAfterLatch(o.state, rest);
      }
      ConcatBounds(head, tail, latch);
    } else {
      assert Run(st, ticks).reports == [];
    }
  }

  /** The reports carry strictly increasing dates. */
  predicate DatesIncrease(reports: seq<Report>)
  {
    forall i, j | 0 <= i < j < |reports| :: reports[i].date < reports[j].date
  }

  /** Prepending a report dated before all others keeps the dates increasing. */
  lemma ConsIncreasing(r: Report, tail: seq<Report>)
    requires AllAfter(tail, r.date) && DatesIncrease(tail)
    ensures DatesIncrease([r] + tail)
  {
    var all := [r] + tail;
    assert forall i | 1 <= i < |all| :: all[i] == tail[i - 1];
  }

  /** Over any run whose clock does not go backwards, the posted reports
      carry strictly increasing dates, so at most one report is posted per
      date. */
  lemma {:induction false} ReportDatesIncrease(st: State, ticks: seq<Tick>)
    requires DatesMonotone(ticks)
    decreases |ticks|
    ensures DatesIncrease(Run(st, ticks).reports)
  {
    if |ticks| > 0 {
      var t := ticks[0];
      var o := Step(st, t.response, t.clock);
      var rest := ticks[1..];
      MonotoneTail(ticks);
      RunSplit(st, ticks);
      ReportDatesIncrease(o.state, rest);
      var tail := Run(o.state, rest).reports;
      if o.report.Some? {
        assert LatchBehind(o.state, rest);
        ReportsAfterLatch(o.state, rest);
        ConsIncreasing(o.report.value, tail);
      }
    } else {
      assert Run(st, ticks).reports == [];
    }
  }

  /** A freshly started bot, polled by a clock whose date never goes
      backwards, posts reports with strictly increasing dates, none dated
      before its first poll. */
  lemma FreshBotReports(ticks: seq<Tick>)
    requires DatesMonotone(ticks)
    ensures DatesIncrease(Run(Initial, ticks).reports)
    ensures |ticks| > 0 ==> AllFrom(Run(Initial, ticks).reports, ticks[0].clock.date)
  {
    ReportDatesIncrease(Initial, ticks);
    if |ticks| > 0 {
      ReportsNotBeforeStart(Initial, ticks);
    }
  }
}

=== FILE: sessions.dfy ===
/** ATC session tracking (bot.py:73-85). For each controller the loop runs
    over every monitored code; each code found in the callsign either opens
    a session keyed by `cid` (start = now, duration 0) or adds one minute to
    the existing one. A callsign containing two monitored codes is therefore
    touched twice in one poll. */
module AtcSessions {
  import opened Common
  import Config
  import opened Feed

  /** A session: the callsign it was opened under, its start time and its
      accumulated duration, both in minutes. */
  datatype Session = Session(callsign: string, start: int, duration: nat)

  /** `atc_sessions`, keyed by controller id. */
  type Sessions = map<Cid, Session>

  /** How many of `codes` occur in `callsign`: the number of times the body
      of the inner loop of bot.py:76-85 runs for it. */
  function MatchCount(callsign: string, codes: seq<string>): (k: nat)
    ensures k <= |codes|
    ensures k == 0 <==> forall i | 0 <= i < |codes| :: !Contains(callsign, codes[i])
  {
    if |codes| == 0 then 0
    else (if Contains(callsign, codes[0]) then 1 else 0) + MatchCount(callsign, codes[1..])
  }

  /** Matches of `callsign` against the monitored airports. */
  function Matches(callsign: string): nat
  {
    MatchCount(callsign, Config.Airports)
  }

  /** One run of bot.py:78-85: open a session or extend it by a minute. */
  function Touch(sessions: Sessions, c: Controller, now: int): (r: Sessions)
    ensures r.Keys == sessions.Keys + {c.cid}
    ensures c.cid !in sessions ==> r[c.cid] == Session(c.callsign, now, 0)
    ensures c.cid in sessions ==>
              && r[c.cid].callsign == sessions[c.cid].callsign && r[c.cid].start == sessions[c.cid].start
              && r[c.cid].duration == sessions[c.cid].duration + Config.MinutesPerMatch
    ensures forall x | x in sessions && x != c.cid :: r[x] == sessions[x]
  {
    if c.cid !in sessions then sessions[c.cid := Session(c.callsign, now, 0)]
    else sessions[c.cid := sessions[c.cid].(duration := sessions[c.cid].duration + Config.MinutesPerMatch)]
  }

  /** The inner loop over `codes` for one controller. */
  function TrackCodes(sessions: Sessions, c: Controller, codes: seq<string>, now: int): (r: Sessions)
    decreases |codes|
    ensures sessions.Keys <= r.Keys <= sessions.Keys + {c.cid}
    ensures forall x | x in sessions && x != c.cid :: r[x] == sessions[x]
  {
    if |codes| == 0 then sessions
    else TrackCodes(if Contains(c.callsign, codes[0]) then Touch(sessions, c, now) else sessions, c, codes[1..], now)
  }

  /** The inner loop in closed form: with k matching codes, nothing changes
      when k is 0; an unknown cid gets a session opened now whose duration is
      k - 1; a known cid gets k more minutes. */
  lemma {:induction false} TrackCodesClosedForm(sessions: Sessions, c: Controller, codes: seq<string>, now: int)
    decreases |codes|
    ensures MatchCount(c.callsign, codes) == 0 ==> TrackCodes(sessions, c, codes, now) == sessions
    ensures MatchCount(c.callsign, codes) > 0 && c.cid !in sessions ==>
              TrackCodes(sessions, c, codes, now) == sessions[c.cid := Session(c.callsign, now, MatchCount(c.callsign, codes) - 1)]
    ensures c.cid in sessions ==>
              TrackCodes(sessions, c, codes, now)
              == sessions[c.cid := sessions[c.cid].(duration := sessions[c.cid].duration + MatchCount(c.callsign, codes))]
  {
    if |codes| > 0 {
      var k := MatchCount(c.callsign, codes);
      var rest := codes[1..];
      var k' := MatchCount(c.callsign, rest);
      if Contains(c.callsign, codes[0]) {
        var s1 := Touch(sessions, c, now);
        TrackCodesClosedForm(s1, c, rest, now);
        assert c.cid in s1;
        assert k == k' + 1;
        if c.cid in sessions {
          assert s1[c.cid := s1[c.cid].(duration := s1[c.cid].duration + k')]
              == sessions[c.cid := sessions[c.cid].(duration := sessions[c.cid].duration + k)];
        } else {
          assert s1[c.cid := s1[c.cid].(duration := s1[c.cid].duration + k')]
              == sessions[c.cid := Session(c.callsign, now, k - 1)];
        }
      } else {
        TrackCodesClosedForm(sessions, c, rest, now);
      }
    } else {
      if c.cid in sessions {
        assert sessions[c.cid := sessions[c.cid].(duration := sessions[c.cid].duration + 0)] == sessions;
      }
    }
  }

  /** One controller of the feed (bot.py:74-85), in closed form (see
      `TrackControllerIsLoop`): only the controller's own cid can change; a
      known cid keeps its callsign and start and never loses time. */
  function TrackController(sessions: Sessions, c: Controller, now: int): (r: Sessions)
    ensures sessions.Keys <= r.Keys <= sessions.Keys + {c.cid}
    ensures forall x | x in sessions && x != c.cid :: r[x] == sessions[x]
    ensures c.cid in sessions ==>
              && r[c.cid].callsign == sessions[c.cid].callsign && r[c.cid].start == sessions[c.cid].start
              && r[c.cid].duration >= sessions[c.cid].duration
  {
    if Matches(c.callsign) == 0 then sessions
    else if c.cid !in sessions then sessions[c.cid := Session(c.callsign, now, Matches(c.callsign) - 1)]
    else sessions[c.cid := sessions[c.cid].(duration := sessions[c.cid].duration + Matches(c.callsign))]
  }

  /** The bot's loop over the monitored codes for one controller has the
      closed form of `TrackController`: with k matching codes, nothing
      changes when k is 0; an unknown cid gets a session opened now under
      the current callsign with duration k - 1; a known cid gains k minutes. */
  lemma TrackControllerIsLoop(sessions: Sessions, c: Controller, now: int)
    ensures TrackCodes(sessions, c, Config.Airports, now) == TrackController(sessions, c, now)
  {
    TrackCodesClosedForm(sessions, c, Config.Airports, now);
  }

  /** The outer loop of bot.py:73-85 over all controllers of a snapshot.
      Between resets sessions are never removed, and a session's callsign
      and start never change while its duration only grows. */
  function TrackAll(sessions: Sessions, controllers: seq<Controller>, now: int): (r: Sessions)
    decreases |controllers|
    ensures sessions.Keys <= r.Keys
    ensures forall cid | cid in sessions ::
              && r[cid].callsign == sessions[cid].callsign && r[cid].start == sessions[cid].start
              && r[cid].duration >= sessions[cid].duration
  {
    if |controllers| == 0 then sessions
    else TrackAll(TrackController(sessions, controllers[0], now), controllers[1..], now)
  }

  /** The number of monitored-code matches over the controller entries
      carrying `cid`: the minutes a poll adds to an existing session of that
      cid, and one more than the duration a new session opens with. */
  function Hits(controllers: seq<Controller>, cid: Cid): nat
  {
    if |controllers| == 0 then 0
    else (if controllers[0].cid == cid then Matches(controllers[0].callsign) else 0) + Hits(controllers[1..], cid)
  }

  /** Entry `i` is the first controller entry with `cid` whose callsign
      matches a monitored code: the one that opens a new session. */
  predicate FirstMatchAt(controllers: seq<Controller>, cid: Cid, i: int)
  {
    && 0 <= i < |controllers| && controllers[i].cid == cid && Matches(controllers[i].callsign) > 0
    && forall j | 0 <= j < i :: controllers[j].cid == cid ==> Matches(controllers[j].callsign) == 0
  }

  /** Over a whole snapshot, an existing session keeps its callsign and
      start and gains exactly one minute per matched code, summed over every
      entry that carries its cid. */
  lemma {:induction false} TrackAllKnown(sessions: Sessions, controllers: seq<Controller>, now: int, cid: Cid)
    requires cid in sessions
    decreases |controllers|
    ensures var r := TrackAll(sessions, controllers, now);
            && cid in r && r[cid].callsign == sessions[cid].callsign && r[cid].start == sessions[cid].start
            && r[cid].duration == sessions[cid].duration + Hits(controllers, cid)
  {
    if |controllers| > 0 {
      var c := controllers[0];
      var s1 := TrackController(sessions, c, now);
      TrackAllKnown(s1, controllers[1..], now, cid);
    }
  }

  /** A cid that no entry of the snapshot matches is left as it was: absent
      if it was absent, unchanged if it was present. */
  lemma {:induction false} TrackAllUnmatched(sessions: Sessions, controllers: seq<Controller>, now: int, cid: Cid)
    requires Hits(controllers, cid) == 0
    decreases |controllers|
    ensures var r := TrackAll(sessions, controllers, now);
            && (cid in r <==> cid in sessions)
            && (cid in sessions ==> r[cid] == sessions[cid])
  {
    if |controllers| > 0 {
      var c := controllers[0];
      var s1 := TrackController(sessions, c, now);
      TrackAllUnmatched(s1, controllers[1..], now, cid);
    }
  }

  /** A cid without a session that the snapshot matches gets one opened at
      `now` under the callsign of the first matching entry with that cid
      (bot.py:78-83); every later match adds a minute (bot.py:85), so its
      duration is one less than its matches. */
  lemma {:induction false} TrackAllNew(sessions: Sessions, controllers: seq<Controller>, now: int, cid: Cid)
    requires cid !in sessions && Hits(controllers, cid) > 0
    decreases |controllers|
    ensures var r := TrackAll(sessions, controllers, now);
            && cid in r && r[cid].start == now && r[cid].duration == Hits(controllers, cid) - 1
            && exists i :: FirstMatchAt(controllers, cid, i) && r[cid].callsign == controllers[i].callsign
  {
    var c := controllers[0];
    var rest := controllers[1..];
    var s1 := TrackController(sessions, c, now);
    var r := TrackAll(s1, rest, now);
    if c.cid == cid && Matches(c.callsign) > 0 {
      assert s1[cid] == Session(c.callsign, now, Matches(c.callsign) - 1);
      TrackAllKnown(s1, rest, now, cid);
      assert FirstMatchAt(controllers, cid, 0);
    } else {
      assert cid !in s1;
      TrackAllNew(s1, rest, now, cid);
      var j :| FirstMatchAt(rest, cid, j) && r[cid].callsign == rest[j].callsign;
      assert controllers[j + 1] == rest[j];
      forall k | 0 <= k < j + 1 && controllers[k].cid == cid
        ensures Matches(controllers[k].callsign) == 0
      {
        if k > 0 {
          assert controllers[k] == rest[k - 1];
        }
      }
      assert FirstMatchAt(controllers, cid, j + 1);
    }
  }
}
